=== FILE: README.md ===
# Beelingua answer memory

A Dafny model of `memoryDB`, the answer memory of the Beelingua quiz bot
(`enhanced-bot.js:15-137`), together with the import handler of its control
panel (`enhanced-bot.js:573-588`).

The memory keeps question/answer pairs as one JSON object
`{questions, stats}` in `localStorage` under the key
`beelingua_memory_enhanced`. Its operations are:

- `createKey` turns a question into a fingerprint. It lower-cases the text,
  deletes everything that is neither `\w` nor `\s`, collapses runs of
  whitespace and trims the result. It then hashes the cleaned text with the
  32-bit string hash `h = (h << 5) - h + code; h = h & h`. The key is
  `abs(hash)_length_w1_w2_w3`, where the w's are the first three words
  longer than two characters.
- `learn` upserts the entry for the question's key, counts how often the
  question was learned (the count grows even when a new answer replaces
  the old one), and saves.
- `find` looks the key up. On a miss it searches fuzzily: it scores every
  entry by word overlap and keeps the first entry with the best score,
  provided that score is above 0.5.
- `load`, `save` and `clear` read, write and remove the stored item. `load`
  falls back to an empty memory when the item is missing, empty or not
  JSON.
- The import handler stores a file's text only if it parses as JSON.

The modules follow the program's layers:

- `Int32` holds the ECMAScript integer conversions (ToInt32, ToUint32),
  `<<` and `&` on 32-bit values.
- `Text` holds the string machinery the regular expressions stand for:
  character classes, lower-casing, stripping, whitespace collapsing,
  trimming, `split`/`join` and decimal rendering.
- `Fingerprint` holds `createKey` as functions and its properties.
- `Store` holds the stored object as a value, and `learn` and `find` as
  functions of it.
- `Memory` holds the `MemoryDB` class over the storage map. Its methods
  carry the source's loops and are proved against the `Store` and
  `Fingerprint` functions.

## Model

| member | source | states |
|---|---|---|
| Int32.ToInt32 | enhanced-bot.js:50-51 | the ECMAScript ToInt32 conversion: the result is a signed 32-bit value congruent to the input modulo 2^32, and equals the input when it is already one |
| Int32.BitAnd | enhanced-bot.js:51 | `x & y` is a signed 32-bit value |
| Int32.BitAndSelf | enhanced-bot.js:51 | `h & h` is ToInt32(h): the statement only wraps the accumulator to 32 bits |
| Int32.ShiftLeft | enhanced-bot.js:50 | `x << n` is a signed 32-bit value; ShiftLeftFive gives its value for n = 5 |
| Int32.ShiftLeftFive | enhanced-bot.js:50 | `h << 5` is ToInt32(32·h) |
| Text.IsWordChar | enhanced-bot.js:44 | every \w character is ASCII and none is \s |
| Text.IsSpace | enhanced-bot.js:45 | the \s class is the ECMAScript white-space and line-terminator code points, which `trim` also removes; IsWordChar shows no \s character is \w |
| Text.LowerChar | enhanced-bot.js:43 | an upper-case ASCII letter becomes the lower-case letter at the same place in the alphabet, every other character stays, and \w and \s membership is kept |
| Text.Lower | enhanced-bot.js:43 | `toLowerCase` keeps the length, turns each A–Z letter into the a–z letter at the same place in the alphabet and leaves every other character as it is |
| Text.Strip | enhanced-bot.js:44 | `replace(/[^\w\s]/g, '')` keeps exactly the \w and \s characters, in order, and is the identity on text made only of them |
| Text.StripAppend | enhanced-bot.js:44 | stripping works piece by piece: Strip(a + b) == Strip(a) + Strip(b) |
| Text.Collapse | enhanced-bot.js:45 | `replace(/\s+/g, ' ')` begins with ' ' exactly when the text begins with \s, and otherwise with the same character |
| Text.CollapseNoDoubleSpace | enhanced-bot.js:45 | after collapsing, no two ' ' are adjacent |
| Text.CollapseRun | enhanced-bot.js:45 | any non-empty \s run collapses the same as a single ' ' |
| Text.TrimStart | enhanced-bot.js:46 | the leading \s run and nothing else is removed: the result is a suffix, the part cut is all \s, and the result does not start with \s |
| Text.TrimEnd | enhanced-bot.js:46 | the trailing \s run and nothing else is removed: the result is a prefix, the part cut is all \s, and the result does not end with \s |
| Text.Trim | enhanced-bot.js:46 | `trim()` leaves no \s at either end |
| Text.Split | enhanced-bot.js:54 | `split` yields at least one piece and no piece holds a separator; SplitNoSep and SplitAtSep fix the pieces for any separator test |
| Text.Join | enhanced-bot.js:55 | `join` begins with the first word, followed by the separator when more words follow |
| Text.JoinSplit | enhanced-bot.js:54-55 | for a one-character separator, joining the pieces of `split(sep)` with `sep` gives the text back |
| Text.SplitAtSeparator | enhanced-bot.js:54 | a piece free of the separator, followed by the separator, splits off as the first piece |
| Text.SplitNoSep | enhanced-bot.js:90 | a text with no separator in it splits into itself alone |
| Text.SplitAtSep | enhanced-bot.js:90 | for any separator test, a separator-free piece followed by a separator splits off as the first piece |
| Text.Longer | enhanced-bot.js:54 | `filter(w => w.length > n)` keeps only words longer than n and never adds words |
| Text.LongerKeepsLongWords | enhanced-bot.js:54 | the filter keeps every word longer than n as often as it occurs and drops every other word, keeping the original order |
| Text.LongerCounts | enhanced-bot.js:54 | each word longer than n occurs in the result exactly as often as in the input; no other word occurs |
| Text.ParseDecimalOfDecimal | enhanced-bot.js:55 | the decimal rendering of a number in a template string reads back as the number |
| Text.Decimal | enhanced-bot.js:55 | `${n}` of a whole number is a non-empty string of digits without a leading zero; ParseDecimalOfDecimal reads it back |
| Fingerprint.Normalize | enhanced-bot.js:43-46 | the cleaned question holds only lower-case \w characters and single ' ', with no ' ' at either end |
| Fingerprint.CharCode | enhanced-bot.js:50 | `charCodeAt` gives a code below 0x110000, and below 128 for \w characters and the space |
| Fingerprint.HashStep | enhanced-bot.js:50-51 | one turn of the loop body leaves a signed 32-bit accumulator; HashStepWraps gives its value |
| Fingerprint.Hash | enhanced-bot.js:48-52 | the loop from 0 over the cleaned text yields a signed 32-bit value; HashIsPolynomial ties it to the base-31 polynomial |
| Fingerprint.HashStepWraps | enhanced-bot.js:50-51 | one loop step turns h into ToInt32(31·h + charCode) |
| Fingerprint.HashIsPolynomial | enhanced-bot.js:48-52 | the hash of the cleaned text is its base-31 polynomial in char codes, wrapped to 32 bits |
| Fingerprint.SpacePieces | enhanced-bot.js:54 | the pieces of `split(' ')` hold no space and join back with spaces into the text |
| Fingerprint.Abs | enhanced-bot.js:55 | `Math.abs` gives the non-negative one of x and −x |
| Fingerprint.KeyWords | enhanced-bot.js:54 | `slice(0, 3)` leaves at most three key words; KeyWordsShape says which |
| Fingerprint.KeyWordsShape | enhanced-bot.js:54 | the key words are the first min(3, k) of the k space-separated words longer than two characters, repetitions included; each is a word of the text without spaces, in text order |
| Fingerprint.Render | enhanced-bot.js:55 | the key begins with the decimal hash, `_`, the decimal length and `_`; RenderFields splits it back |
| Fingerprint.KeyOf | enhanced-bot.js:41-56 | createKey gives null exactly for the empty question; any other text, even punctuation alone, gets a key |
| Fingerprint.KeyFields | enhanced-bot.js:54-55 | the key's first `_` field is abs(ToInt32(polynomial hash)), at most 2^31; the second is the cleaned length; every key contains `_` |
| Fingerprint.KeyIgnoresCase | enhanced-bot.js:43 | questions that differ only in ASCII case share a key |
| Fingerprint.KeyIgnoresRemovedChar | enhanced-bot.js:44 | deleting a character that is neither \w nor \s does not change the key, when some text remains (the empty question has no key) |
| Fingerprint.KeyIgnoresSpacing | enhanced-bot.js:45 | replacing a whitespace run by any other non-empty run does not change the key |
| Fingerprint.KeyIgnoresOuterSpace | enhanced-bot.js:46 | leading or trailing whitespace does not change the key of a non-empty question |
| Fingerprint.NormalizeIdempotent | enhanced-bot.js:43-46 | cleaning an already cleaned question changes nothing |
| Fingerprint.NormalizeFixpoint | enhanced-bot.js:43-46 | text made only of lower-case \w characters and single inner ' ' is left as it is by cleaning |
| Fingerprint.KeyOfNormalized | enhanced-bot.js:41-56 | a question and its cleaned form share a key when the cleaned form is non-empty |
| Store.Empty | enhanced-bot.js:21-24 | the fallback memory has no questions and zeroed counters stamped with the current time |
| Store.Restore | enhanced-bot.js:18-28 | load gives the empty memory for a missing or empty item or one JSON.parse rejects, and otherwise what the item parses to |
| Store.RestoreEncoded | enhanced-bot.js:18-33 | loading what save wrote gives back the saved memory |
| Store.Stamped | enhanced-bot.js:32 | save changes only `stats.lastUpdate` |
| Store.Prefix | enhanced-bot.js:65 | `substring(0, 200)` is the first min(200, length) characters of the text |
| Store.Learned | enhanced-bot.js:64-73 | the key occurs exactly once; its entry holds the new answer, the question cut to 200 characters and the previous count + 1 (1 if new); every other entry is unchanged; a new key goes last in iteration order; `total` is the number of entries and `learned` grows by one |
| Store.DistinctOnce | enhanced-bot.js:64 | a key present in an object is listed exactly once |
| Store.KeysMatchOrder | enhanced-bot.js:72 | `Object.keys(questions).length` is the number of stored entries |
| Store.SignificantWords | enhanced-bot.js:90-95 | the query words are all longer than three characters; SignificantWordsOfWord and SignificantWordsStep say which they are |
| Store.SignificantWordsOfWord | enhanced-bot.js:90 | a text of \w characters alone yields itself, lower-cased, when longer than three characters, and no word otherwise |
| Store.SignificantWordsStep | enhanced-bot.js:90 | a \w run ended by a non-word character yields that run, lower-cased, when longer than three characters, followed by the words of the rest of the text |
| Store.Common | enhanced-bot.js:96 | the common words are query words found among the entry's words; every query word found is kept |
| Store.CommonCounts | enhanced-bot.js:96 | a query word counts in `common` as often as it occurs in the query when the entry has it, and not at all otherwise |
| Store.CommonAll | enhanced-bot.js:96 | when every query word is among the entry's words, all of them are common, in order |
| Store.WordScore | enhanced-bot.js:97 | a score lies in [0, 1]; it is NaN exactly when both word lists are empty, and 0 or NaN when the query has no words; WordScoreThreshold says when it passes 0.5 |
| Store.WordScoreThreshold | enhanced-bot.js:99 | `score > 0.5` holds exactly when twice the number of common words exceeds the longer word list |
| Store.WordScoreSelf | enhanced-bot.js:97 | a non-empty word list scores exactly 1 against itself |
| Store.Scores | enhanced-bot.js:94-97 | one score per entry, in iteration order; ScoreAt gives each entry's score |
| Store.Scan | enhanced-bot.js:94-103 | the fuzzy loop over the first n scores picks an index below n, or none; ScanPicksFirstBest says which |
| Store.ScanPick | enhanced-bot.js:94-103 | the picked entry has the best score, which is above 0.5; with no pick the best score stays 0 |
| Store.ScanMaximal | enhanced-bot.js:94-103 | no entry scores above both the best score and 0.5 |
| Store.ScanNone | enhanced-bot.js:94-110 | the search picks nothing exactly when no entry scores above 0.5 |
| Store.ScanFirst | enhanced-bot.js:99 | among equal best scores the earliest entry wins (strict `>`) |
| Store.ScanPicksFirstBest | enhanced-bot.js:94-110 | the pick is the first entry with the greatest score, and that score is above 0.5; there is no pick exactly when no score is above 0.5 |
| Store.NoSignificantWordsNoFuzzy | enhanced-bot.js:90-103 | a query without a word longer than three characters never matches fuzzily |
| Store.ExactHit | enhanced-bot.js:83 | a key hit needs a non-empty question and a non-empty memory |
| Store.Confidence | enhanced-bot.js:107 | for a count of at least 0 and a score in [0, 1], `count * score` lies between 0 and the count; for a full score it is the count |
| Store.FuzzyRecall | enhanced-bot.js:94-110 | the fuzzy answer is null exactly when no entry scores above 0.5; otherwise it is the answer of the first entry with the greatest score, that score is above 0.5, the confidence is count × score and the type is fuzzy |
| Store.FuzzyRecallOfStored | enhanced-bot.js:94-108 | asking with the significant words of a stored question that has a word longer than three characters always gives a fuzzy match |
| Store.Recall | enhanced-bot.js:79-111 | a stored key answers exactly with the entry's count as confidence; on a key miss the answer is the fuzzy answer for the query's words longer than three characters; the result is null exactly when the key misses and no entry scores above 0.5 |
| Store.RecallExact | enhanced-bot.js:83-87 | a question whose key is stored is answered by that entry, as an exact match with its count as confidence |
| Store.RecallAfterLearned | enhanced-bot.js:58-86 | finding a question in the memory learn just saved for it gives the new answer, exactly, with the new count |
| Memory.MemoryDB.Item | enhanced-bot.js:20 | `getItem` gives null exactly when nothing is stored under the key, and the stored text otherwise |
| Memory.MemoryDB.Load | enhanced-bot.js:18-28 | load is Restore of the stored item: the empty memory or exactly what the item parses to; it writes nothing |
| Memory.MemoryDB.Save | enhanced-bot.js:30-39 | save stamps the memory and writes its JSON under the storage key, or reports false and writes nothing when the write is refused |
| Memory.MemoryDB.CreateKey | enhanced-bot.js:41-56 | createKey computes KeyOf |
| Memory.MemoryDB.HashText | enhanced-bot.js:48-52 | the hashing loop computes the hash of the cleaned text, which is its base-31 polynomial in char codes wrapped to 32 bits |
| Memory.MemoryDB.Learn | enhanced-bot.js:58-77 | an empty question returns false and leaves storage alone; otherwise storage holds the saved Learned memory and the result is whether the write went through |
| Memory.MemoryDB.Find | enhanced-bot.js:79-111 | find computes Recall of the loaded memory and writes nothing |
| Memory.MemoryDB.EntryScore | enhanced-bot.js:94-97 | one turn of the fuzzy loop reads the entry at that position and its word-overlap score against the query |
| Memory.MemoryDB.FuzzySearch | enhanced-bot.js:90-103 | the loop's bestMatch and bestScore are the pick and score of Scan |
| Memory.MemoryDB.Clear | enhanced-bot.js:133-136 | clear removes only the memory's item, after which load gives the empty memory |
| Memory.MemoryDB.Import | enhanced-bot.js:576-586 | the file text is stored as is exactly when it parses and the write goes through; otherwise storage is untouched |
| Memory.FindAfterLearn | enhanced-bot.js:58-86 | after learn, find on the same question answers exactly with the learned answer and its new count |
| Memory.RecallRestored | enhanced-bot.js:18-33 | find on a memory loaded from what save wrote answers as on the saved memory |
| Memory.LoadAfterImport | enhanced-bot.js:576-586 | after an import, load gives back exactly what the imported text parses to |

## Left out

- `videoController`, `stealth`, `ui` (apart from the import handler), `bot`
  and `loader.js`. These are DOM manipulation, timers, random delays and
  remote code loading, and none of them is part of the memory.
- `memoryDB.getStats` and `memoryDB.export`. They only format dates and
  trigger a file download.
- The console logging in `learn`, `find`, `save` and `clear`.
- `Date.now()` is the `now` parameter. `learn` reads the clock up to three
  times: in `load` only when it falls back to the empty memory, then for
  the entry's time and in `save`. The model uses one instant for all of
  them.
- `learn`'s default `source = 'auto'` is not modelled: `source` is always
  passed. Every call in the bot passes a source.
- `localStorage` is the `storage` map. The `accepted` parameter stands for
  whether `setItem` takes the write, since it throws when the quota is
  exceeded.
- Memory.MemoryDB.Clear: `getItem` and `removeItem` can also throw, for
  instance when storage is disabled, and the model does not capture this.
  `load` catches a throwing `getItem` in its try/catch (lines 19-27) and
  falls back to the empty memory, which the model can only show as an
  absent item. `clear` has no try (line 134), so a throwing `removeItem`
  reaches the panel's click handler (line 591). The model's `Clear` always
  succeeds.
- JSON.parse and JSON.stringify are the `decode` and `encode` functions.
  They are assumed to round-trip stored memories and to reject the empty
  text (`Store.IsJsonCodec`).
- JSON that parses but is not shaped like a memory is not modelled. The
  source treats such data in different ways:
  - `null`, or an object without `questions`, makes `find` throw when it
    reads `data.questions` (line 83, or line 94 when the key is null). It
    makes `learn` throw for every non-empty question (lines 64-67).
  - An object without `stats` makes `learn` throw at line 72.
  - An entry without `q` makes only `find` throw, and only in its fuzzy
    loop (line 95). An exact hit and `learn` still work.
  - A count that is a string does not throw. `learn` concatenates, so
    `"3"` becomes `"31"` (line 67).
  - Keys that look like array indices do not throw either. `Object.entries`
    lists them first, in numeric order, which changes which of two equal
    best scores the fuzzy loop keeps (line 94). The keys `createKey` makes
    always contain `_`, so only an imported file can hold such keys.
- A Dafny `char` is a Unicode scalar value, while JavaScript strings are
  sequences of UTF-16 code units. A character outside the Basic
  Multilingual Plane is one character here but two code units in the
  source, and a lone surrogate cannot be written at all. The cleaned
  question is ASCII, so keys and hashes are not affected, but lengths and
  cuts of the raw question are.
- Store.Prefix: the stored question is cut after 200 Unicode scalar
  values, where `substring(0, 200)` cuts after 200 UTF-16 code units. The
  two differ when the first 200 characters include one outside the Basic
  Multilingual Plane.
- Only ASCII letters are lower-cased. Unicode case mapping is not
  modelled; in JavaScript a few non-ASCII capitals, such as U+212A KELVIN
  SIGN, lower-case to ASCII letters, which the model drops instead.
- Store.WordScore: the score is the exact rational, not the IEEE double
  the source computes, so ties that rounding would create or break are not
  modelled.
- Store.Confidence: `bestMatch.count * bestScore` (line 107) is an IEEE
  double product, while the model's confidence is the exact real product.
  The two can differ in the last bits.
- Store.Restore: data that parses but has no `questions` is not caught at
  load time. The model only distinguishes parses from does-not-parse.
- The import handler checks only that the file parses; it does not check
  for a `questions` field. Capacity limits, eviction, a minimum question
  length and fingerprint truncation appear nowhere in the code, so the
  model has none of them.

=== FILE: Fingerprint.dfy ===
/**
  The question fingerprint of memoryDB.createKey (enhanced-bot.js:41-56):
  the question is cleaned (lower-cased, stripped of everything but \w and \s,
  whitespace collapsed, trimmed), hashed with a 32-bit rolling hash, and
  rendered as `|hash|_length_w1_w2_w3` from the first three words longer
  than two characters.
 */
module Fingerprint {

  import opened Wrappers
  import opened Int32
  import opened Text

  /**
    The cleaned question:
    `toLowerCase().replace(/[^\w\s]/g, '').replace(/\s+/g, ' ').trim()`.
    It holds only lower-case \w characters and single inner ' ' characters.
   */
  function Normalize(text: string): (clean: string)
    ensures forall i :: 0 <= i < |clean| ==> IsKeyChar(clean[i]) || clean[i] == ' '
    ensures clean == [] || (clean[0] != ' ' && clean[|clean| - 1] != ' ')
    ensures NoDoubleSpace(clean)
  {
    var s := Strip(Lower(text));
    var c := Collapse(s);
    CollapseKeyChars(s);
    CollapseNoDoubleSpace(s);
    TrimIsSlice(c);
    Trim(c)
  }

  /** Trim cuts a contiguous piece out of its input. */
  lemma TrimIsSlice(t: string)
    ensures var k := |t| - |TrimStart(t)|;
      0 <= k <= k + |Trim(t)| <= |t|
      && forall i :: 0 <= i < |Trim(t)| ==> Trim(t)[i] == t[k + i]
  {
  }

  /** The UTF-16 code unit `charCodeAt` reads; the cleaned text is ASCII, so it is the code point. */
  function CharCode(c: char): (code: int)
    ensures 0 <= code < 0x11_0000
    ensures IsWordChar(c) || c == ' ' ==> code < 128
  {
    c as int
  }

  /** One turn of the loop: `hash = ((hash << 5) - hash) + code; hash = hash & hash`. */
  function HashStep(h: int, c: char): (r: int)
    ensures IsInt32(r)
  {
    var t := ShiftLeft(h, 5) - h + CharCode(c);
    BitAnd(t, t)
  }

  /** The hash after the loop has consumed all of `s`, from 0. */
  function Hash(s: string): (h: int)
    ensures IsInt32(h)
  {
    if s == [] then 0 else HashStep(Hash(s[..|s| - 1]), s[|s| - 1])
  }

  /** A loop turn spelled out statement by statement. */
  lemma HashStepUnfold(h: int, c: char)
    ensures HashStep(h, c) == BitAnd(ShiftLeft(h, 5) - h + CharCode(c), ShiftLeft(h, 5) - h + CharCode(c))
  {
  }

  /** Hashing one more character of `s` is one more loop turn. */
  lemma HashPrefix(s: string, i: nat)
    requires i < |s|
    ensures Hash(s[..i + 1]) == HashStep(Hash(s[..i]), s[i])
  {
    assert s[..i + 1][..i] == s[..i];
  }

  /** The polynomial Σ code(s[i])·31^(|s|-1-i), without any wrap-around. */
  function Poly(s: string): int {
    if s == [] then 0 else 31 * Poly(s[..|s| - 1]) + CharCode(s[|s| - 1])
  }

  /** Each turn keeps the accumulator a signed 32-bit value equal to 31·h + code wrapped. */
  lemma HashStepWraps(h: int, c: char)
    requires IsInt32(h)
    ensures HashStep(h, c) == ToInt32(31 * h + CharCode(c))
    ensures IsInt32(HashStep(h, c))
  {
    var t := ShiftLeft(h, 5) - h + CharCode(c);
    assert HashStep(h, c) == BitAnd(t, t);
    BitAndSelf(t);
    ShiftLeftFive(h);
    var k := ToInt32Quotient(32 * h);
    var w := 31 * h + CharCode(c);
    assert t == w + (-k) * Modulus;
    ToInt32Congruent(t, w, -k);
  }

  /** The hash is the polynomial hash of the cleaned text reduced to a signed 32-bit value. */
  lemma {:induction false} HashIsPolynomial(s: string)
    ensures Hash(s) == ToInt32(Poly(s))
  {
    if s != [] {
      var p := s[..|s| - 1];
      var c := s[|s| - 1];
      HashIsPolynomial(p);
      HashStepWraps(Hash(p), c);
      var k := ToInt32Quotient(Poly(p));
      assert 31 * Poly(p) + CharCode(c) == (31 * Hash(p) + CharCode(c)) + (31 * k) * Modulus;
      ToInt32Congruent(31 * Poly(p) + CharCode(c), 31 * Hash(p) + CharCode(c), 31 * k);
    }
  }

  /** `Math.abs`. */
  function Abs(x: int): (r: nat)
    ensures r == x || r == -x
  {
    if x < 0 then -x else x
  }

  const MaxKeyWords: nat := 3
  const MinKeyWordLength: nat := 2

  /** `clean.split(' ')`. */
  function SpacePieces(clean: string): (pieces: seq<string>)
    ensures forall i, j :: 0 <= i < |pieces| && 0 <= j < |pieces[i]| ==> pieces[i][j] != ' '
    ensures Join(pieces, ' ') == clean
  {
    JoinSplit(clean, ' ');
    Split(clean, c => c == ' ')
  }

  /** `clean.split(' ').filter(w => w.length > 2).slice(0, 3)`. */
  function KeyWords(clean: string): (ws: seq<string>)
    ensures |ws| <= MaxKeyWords
  {
    var long := Longer(SpacePieces(clean), MinKeyWordLength);
    long[..Min(|long|, MaxKeyWords)]
  }

  /**
    The key words are the first three (or fewer, when there are fewer) of
    the words of the cleaned text longer than two characters: words of the
    text, in text order, each free of ' '.
   */
  lemma KeyWordsShape(clean: string)
    ensures KeyWords(clean) <= Longer(SpacePieces(clean), MinKeyWordLength)
    ensures |KeyWords(clean)| == Min(|Longer(SpacePieces(clean), MinKeyWordLength)|, MaxKeyWords)
    ensures forall i :: 0 <= i < |KeyWords(clean)| ==> |KeyWords(clean)[i]| > MinKeyWordLength
    ensures forall i, j :: 0 <= i < |KeyWords(clean)| && 0 <= j < |KeyWords(clean)[i]| ==> KeyWords(clean)[i][j] != ' '
    ensures IsSubsequence(KeyWords(clean), SpacePieces(clean))
  {
    var pieces := SpacePieces(clean);
    var long := Longer(pieces, MinKeyWordLength);
    var ws := KeyWords(clean);
    LongerKeepsLongWords(pieces, MinKeyWordLength);
    var n := Min(|long|, MaxKeyWords);
    assert ws == long[..n];
    PrefixIsSubsequence(long, pieces, n);
    NoSpaceInSubsequence(ws, pieces);
  }

  function Min(a: nat, b: nat): nat {
    if a < b then a else b
  }

  /** Words picked out of the pieces of a split on ' ' contain no ' '. */
  lemma NoSpaceInSubsequence(ws: seq<string>, pieces: seq<string>)
    requires IsSubsequence(ws, pieces)
    requires forall i, j :: 0 <= i < |pieces| && 0 <= j < |pieces[i]| ==> pieces[i][j] != ' '
    ensures forall i, j :: 0 <= i < |ws| && 0 <= j < |ws[i]| ==> ws[i][j] != ' '
  {
    SubsequenceMembers(ws, pieces);
    forall i, j | 0 <= i < |ws| && 0 <= j < |ws[i]|
      ensures ws[i][j] != ' '
    {
      assert ws[i] in pieces;
      var k :| 0 <= k < |pieces| && pieces[k] == ws[i];
      assert pieces[k][j] == ws[i][j];
    }
  }

  lemma {:induction false} SubsequenceMembers<T>(a: seq<T>, b: seq<T>)
    requires IsSubsequence(a, b)
    ensures forall x :: x in a ==> x in b
    decreases |b|
  {
    if a != [] && b != [] {
      if a[0] == b[0] {
        SubsequenceMembers(a[1..], b[1..]);
        assert forall x :: x in a ==> x == a[0] || x in a[1..];
        assert forall x :: x in b[1..] ==> x in b;
      } else {
        SubsequenceMembers(a, b[1..]);
        assert forall x :: x in b[1..] ==> x in b;
      }
    }
  }

  /** The template literal `${h}_${len}_${words.join('_')}`. */
  function Render(h: nat, len: nat, words: seq<string>): (key: string)
    ensures Decimal(h) + ['_'] + Decimal(len) + ['_'] <= key
  {
    Decimal(h) + ['_'] + Decimal(len) + ['_'] + Join(words, '_')
  }

  /** memoryDB.createKey as a value: `null` for the empty question, the rendered fingerprint otherwise. */
  function KeyOf(text: string): (key: Option<string>)
    ensures key.None? <==> text == []
  {
    if text == [] then None
    else
      var clean := Normalize(text);
      Some(Render(Abs(Hash(clean)), |clean|, KeyWords(clean)))
  }

  predicate AllDigits(s: string) {
    forall i :: 0 <= i < |s| ==> IsDigit(s[i])
  }

  /**
    The key's first `_`-separated field is the decimal absolute value of the
    32-bit polynomial hash, at most 2^31; the second is the cleaned length;
    at least one more field follows, so every key contains `_`.
   */
  lemma KeyFields(text: string)
    requires text != []
    ensures var key := KeyOf(text).value;
      var clean := Normalize(text);
      var fields := Split(key, c => c == '_');
      && |fields| >= 3
      && AllDigits(fields[0]) && ParseDecimal(fields[0]) == Abs(ToInt32(Poly(clean)))
      && ParseDecimal(fields[0]) <= Half
      && AllDigits(fields[1]) && ParseDecimal(fields[1]) == |clean|
      && '_' in key
  {
    var clean := Normalize(text);
    var h := Abs(Hash(clean));
    RenderFields(h, |clean|, KeyWords(clean));
    ParseDecimalOfDecimal(h);
    ParseDecimalOfDecimal(|clean|);
    HashIsPolynomial(clean);
  }

  /** Splitting a rendered key on `_` gives back the two decimal fields first. */
  lemma RenderFields(h: nat, len: nat, words: seq<string>)
    ensures var fields := Split(Render(h, len, words), c => c == '_');
      |fields| >= 3 && fields[0] == Decimal(h) && fields[1] == Decimal(len)
    ensures '_' in Render(h, len, words)
  {
    var d1, d2, tail := Decimal(h), Decimal(len), Join(words, '_');
    var key := Render(h, len, words);
    assert key == d1 + ['_'] + (d2 + ['_'] + tail);
    assert forall i :: 0 <= i < |d1| ==> d1[i] != '_' by {
      assert forall i :: 0 <= i < |d1| ==> IsDigit(d1[i]);
    }
    assert forall i :: 0 <= i < |d2| ==> d2[i] != '_' by {
      assert forall i :: 0 <= i < |d2| ==> IsDigit(d2[i]);
    }
    SplitAtSeparator(d1, '_', d2 + ['_'] + tail);
    SplitAtSeparator(d2, '_', tail);
    assert key[|d1|] == '_';
  }

  /** Normalization through its stages, one piece of text at a time. */
  lemma CleanAppend(a: string, b: string)
    ensures Strip(Lower(a + b)) == Strip(Lower(a)) + Strip(Lower(b))
  {
    LowerAppend(a, b);
    StripAppend(Lower(a), Lower(b));
  }

  /** A run of \s characters goes through lower-casing and stripping untouched. */
  lemma CleanSpaces(run: string)
    requires AllSpace(run)
    ensures Strip(Lower(run)) == run
  {
    LowerOfLower(run);
  }

  /** Texts whose characters agree up to ASCII case have the same key. */
  lemma KeyIgnoresCase(t1: string, t2: string)
    requires |t1| == |t2|
    requires forall i :: 0 <= i < |t1| ==> LowerChar(t1[i]) == LowerChar(t2[i])
    ensures KeyOf(t1) == KeyOf(t2)
  {
    assert Lower(t1) == Lower(t2);
  }

  /** Deleting a character that is neither \w nor \s leaves the key unchanged. */
  lemma KeyIgnoresRemovedChar(a: string, c: char, b: string)
    requires !IsWordChar(c) && !IsSpace(c)
    requires a + b != []
    ensures KeyOf(a + [c] + b) == KeyOf(a + b)
  {
    NormalizeRemovedChar(a, c, b);
  }

  lemma NormalizeRemovedChar(a: string, c: char, b: string)
    requires !IsWordChar(c) && !IsSpace(c)
    ensures Normalize(a + [c] + b) == Normalize(a + b)
  {
    var A, B := Strip(Lower(a)), Strip(Lower(b));
    CleanAppend(a + [c], b);
    CleanAppend(a, [c]);
    CleanAppend(a, b);
    assert Lower([c]) == [LowerChar(c)];
    assert Strip([LowerChar(c)]) == [];
    assert A + [] == A;
  }

  /** A run of \s characters may be replaced by any other non-empty run without changing the key. */
  lemma KeyIgnoresSpacing(a: string, run1: string, run2: string, b: string)
    requires run1 != [] && AllSpace(run1)
    requires run2 != [] && AllSpace(run2)
    ensures KeyOf(a + run1 + b) == KeyOf(a + run2 + b)
  {
    NormalizeRun(a, run1, b);
    NormalizeRun(a, run2, b);
  }

  lemma NormalizeRun(a: string, run: string, b: string)
    requires run != [] && AllSpace(run)
    ensures Normalize(a + run + b) == Normalize(a + [' '] + b)
  {
    var A, B := Strip(Lower(a)), Strip(Lower(b));
    CleanAppend(a + run, b);
    CleanAppend(a, run);
    CleanSpaces(run);
    CleanAppend(a + [' '], b);
    CleanAppend(a, [' ']);
    CleanSpaces([' ']);
    CollapseRun(A, run, B);
  }

  /** \s characters before or after the question do not change its key. */
  lemma KeyIgnoresOuterSpace(run: string, t: string)
    requires AllSpace(run) && t != []
    ensures KeyOf(run + t) == KeyOf(t)
    ensures KeyOf(t + run) == KeyOf(t)
  {
    if run != [] {
      NormalizeLeadingRun(run, t);
      NormalizeTrailingRun(t, run);
    } else {
      assert run + t == t && t + run == t;
    }
  }

  lemma NormalizeLeadingRun(run: string, t: string)
    requires run != [] && AllSpace(run)
    ensures Normalize(run + t) == Normalize(t)
  {
    var T := Strip(Lower(t));
    CleanAppend(run, t);
    CleanSpaces(run);
    CollapseRunAtStart(run, T);
    CollapseTrimStart([' '] + T);
    CollapseTrimStart(T);
    assert TrimStart([' '] + T) == TrimStart(T) by {
      TrimStartSpacePrefix([' '], T);
    }
  }

  lemma NormalizeTrailingRun(t: string, run: string)
    requires run != [] && AllSpace(run)
    ensures Normalize(t + run) == Normalize(t)
  {
    var T := Strip(Lower(t));
    CleanAppend(t, run);
    CleanSpaces(run);
    assert T + run + [] == T + run && T + [' '] + [] == T + [' '];
    CollapseRun(T, run, []);
    TrimCollapseSnocSpace(T);
  }

  /** A ' ' at the end of the text disappears once collapsed and trimmed. */
  lemma TrimCollapseSnocSpace(T: string)
    ensures Trim(Collapse(T + [' '])) == Trim(Collapse(T))
  {
    if T == [] || !IsSpace(T[|T| - 1]) {
      CollapseSnocSpace(T);
      TrimSnocSpace(Collapse(T));
    } else {
      CollapseSnocAfterSpace(T);
    }
  }

  lemma TrimSnocSpace(C: string)
    ensures Trim(C + [' ']) == Trim(C)
  {
    TrimStartSnocSpace(C);
    if TrimStart(C) != [] {
      TrimEndSnocSpace(TrimStart(C));
    }
  }

  lemma TrimEndSnocSpace(u: string)
    ensures TrimEnd(u + [' ']) == TrimEnd(u)
  {
    assert (u + [' '])[..|u|] == u;
  }

  /** A text that is already clean collapses to itself. */
  lemma {:induction false} CollapseFixpoint(s: string)
    requires NoDoubleSpace(s)
    requires forall i :: 0 <= i < |s| ==> IsSpace(s[i]) ==> s[i] == ' '
    ensures Collapse(s) == s
  {
    if s != [] {
      var rest := s[1..];
      assert NoDoubleSpace(rest) by {
        forall i | 0 <= i < |rest| - 1 ensures !(rest[i] == ' ' && rest[i + 1] == ' ') {
          assert rest[i] == s[i + 1] && rest[i + 1] == s[i + 2];
        }
      }
      CollapseFixpoint(rest);
      if IsSpace(s[0]) {
        assert rest == [] || !IsSpace(rest[0]) by {
          if rest != [] {
            assert s[0] == ' ' && rest[0] == s[1];
          }
        }
      }
    }
  }

  /** Cleaning is a fixpoint: the cleaned text cleans to itself. */
  lemma NormalizeIdempotent(text: string)
    ensures Normalize(Normalize(text)) == Normalize(text)
  {
    NormalizeFixpoint(Normalize(text));
  }

  /** Text that already has the shape of a cleaned question normalizes to itself. */
  lemma NormalizeFixpoint(clean: string)
    requires forall i :: 0 <= i < |clean| ==> IsKeyChar(clean[i]) || clean[i] == ' '
    requires clean == [] || (clean[0] != ' ' && clean[|clean| - 1] != ' ')
    requires NoDoubleSpace(clean)
    ensures Normalize(clean) == clean
  {
    LowerOfLower(clean);
    assert Strip(Lower(clean)) == clean;
    assert forall i :: 0 <= i < |clean| ==> IsSpace(clean[i]) ==> clean[i] == ' ';
    CollapseFixpoint(clean);
  }

  /** A question has the same key as its cleaned form, whenever that form is not empty. */
  lemma KeyOfNormalized(text: string)
    requires Normalize(text) != []
    ensures KeyOf(Normalize(text)) == KeyOf(text)
  {
    NormalizeIdempotent(text);
  }
}

=== FILE: Int32.dfy ===
/**
  The 32-bit integer semantics of JavaScript's bitwise operators
  (ToInt32, ToUint32, `<<` and `&`), on unbounded integers.
 */
module Int32 {

  const Modulus: int := 0x1_0000_0000
  const Half: int := 0x8000_0000

  predicate IsInt32(x: int) {
    -Half <= x < Half
  }

  function Pow2(n: nat): (r: nat)
    ensures r >= 1
  {
    if n == 0 then 1 else 2 * Pow2(n - 1)
  }

  /** ECMAScript ToUint32: the representative of `x` modulo 2^32 in [0, 2^32). */
  function ToUint32(x: int): (r: nat)
    ensures r < Modulus
    ensures (x - r) % Modulus == 0
  {
    x % Modulus
  }

  /** ECMAScript ToInt32: the representative of `x` modulo 2^32 in [-2^31, 2^31). */
  function ToInt32(x: int): (r: int)
    ensures IsInt32(r)
    ensures (x - r) % Modulus == 0
    ensures IsInt32(x) ==> r == x
  {
    var u := ToUint32(x);
    if u < Half then u else u - Modulus
  }

  /** The bitwise AND of the low `width` bits of `a` and `b`, one bit at a time. */
  function AndBits(a: nat, b: nat, width: nat): (r: nat)
    ensures r < Pow2(width)
  {
    if width == 0 then 0
    else (a % 2) * (b % 2) + 2 * AndBits(a / 2, b / 2, width - 1)
  }

  /** JavaScript `x & y`: both operands go through ToInt32, the 32-bit result is read as signed. */
  function BitAnd(x: int, y: int): (r: int)
    ensures IsInt32(r)
  {
    ToInt32(AndBits(ToUint32(x), ToUint32(y), 32))
  }

  /**
    JavaScript `x << n`: the left operand goes through ToInt32, its bits move up
    by `n` places, those past bit 31 are lost and the result is read as signed.
   */
  function ShiftLeft(x: int, n: nat): (r: int)
    requires n < 32
    ensures IsInt32(r)
  {
    ToInt32(ToInt32(x) * Pow2(n))
  }

  /** Two integers that differ by a multiple of 2^32 have the same ToInt32. */
  lemma ToInt32Congruent(x: int, y: int, k: int)
    requires x == y + k * Modulus
    ensures ToInt32(x) == ToInt32(y)
  {
    assert x % Modulus == y % Modulus;
  }

  /** ToInt32 moves its argument by a whole multiple of 2^32. */
  lemma ToInt32Quotient(x: int) returns (k: int)
    ensures x == ToInt32(x) + k * Modulus
  {
    k := (x - ToInt32(x)) / Modulus;
  }

  /** Anding a number below 2^width with itself gives it back. */
  lemma {:induction false} AndBitsSelf(a: nat, width: nat)
    requires a < Pow2(width)
    ensures AndBits(a, a, width) == a
  {
    if width > 0 {
      AndBitsSelf(a / 2, width - 1);
      assert (a % 2) * (a % 2) == a % 2;
    }
  }

  /** `x & x` is ToInt32(x): the idiom the source uses to force a value into 32 bits. */
  lemma BitAndSelf(x: int)
    ensures BitAnd(x, x) == ToInt32(x)
  {
    assert Pow2(32) == Modulus by {
      assert Pow2(8) == 256;
      assert Pow2(16) == 256 * 256;
      assert Pow2(24) == 256 * 256 * 256;
    }
    AndBitsSelf(ToUint32(x), 32);
    var k := (x - ToUint32(x)) / Modulus;
    ToInt32Congruent(ToUint32(x), x, -k);
  }

  /** `x << 5` is 32·x wrapped to 32 bits. */
  lemma ShiftLeftFive(x: int)
    ensures ShiftLeft(x, 5) == ToInt32(32 * x)
  {
    var k := ToInt32Quotient(x);
    assert 32 * x == ToInt32(x) * 32 + (32 * k) * Modulus;
    ToInt32Congruent(32 * x, ToInt32(x) * 32, 32 * k);
  }
}

=== FILE: Memory.dfy ===
/**
  memoryDB (enhanced-bot.js:15-137) as an object over the browser's
  localStorage, plus the import handler of the memory panel
  (enhanced-bot.js:573-588). localStorage is the `storage` map; JSON.parse
  and JSON.stringify are the `decode` and `encode` functions the object is
  built with; `Date.now()` is the `now` parameter; whether
  `localStorage.setItem` accepts the write (it throws when the quota is
  exceeded) is the `accepted` parameter.
 */
module Memory {

  import opened Wrappers
  import opened Int32
  import opened Fingerprint
  import opened Store

  class MemoryDB {
    const storageKey: string := "beelingua_memory_enhanced"
    const decode: string -> Option<Store>
    const encode: Store -> string
    var storage: map<string, string>

    constructor (decode: string -> Option<Store>, encode: Store -> string, storage: map<string, string>)
      ensures this.decode == decode && this.encode == encode && this.storage == storage
    {
      this.decode := decode;
      this.encode := encode;
      this.storage := storage;
    }

    /** `localStorage.getItem(this.storageKey)`, None for null. */
    function Item(): (item: Option<string>)
      reads this
      ensures item.None? <==> storageKey !in storage
      ensures item.Some? ==> item.value == storage[storageKey]
    {
      if storageKey in storage then Some(storage[storageKey]) else None
    }

    /** load: the stored memory, or the empty one when the item is missing, empty or does not parse. */
    method Load(now: int) returns (d: Store)
      ensures d == Restore(Item(), decode, now)
      ensures d == Empty(now) || (Item().Some? && decode(Item().value) == Some(d))
    {
      if storageKey in storage && storage[storageKey] != [] {
        match decode(storage[storageKey]) {
          case Some(parsed) => d := parsed;
          case None => d := Empty(now);
        }
      } else {
        d := Empty(now);
      }
    }

    /** save: stamps the memory with `now` and writes it under the storage key; false when the write is refused. */
    method Save(data: Store, now: int, accepted: bool) returns (ok: bool)
      modifies this
      ensures ok == accepted
      ensures storage == if accepted then old(storage)[storageKey := encode(Stamped(data, now))] else old(storage)
    {
      var stamped := Stamped(data, now);
      if accepted {
        storage := storage[storageKey := encode(stamped)];
        ok := true;
      } else {
        ok := false;
      }
    }

    /** createKey: None for the empty text, otherwise the key made from the normalized text and its hash. */
    static method CreateKey(questionText: string) returns (key: Option<string>)
      ensures key == KeyOf(questionText)
    {
      if questionText == [] {
        return None;
      }
      var clean := Normalize(questionText);
      var hash := HashText(clean);
      key := Some(Render(Abs(hash), |clean|, KeyWords(clean)));
    }

    /** The hashing loop of createKey: after each character the accumulator is `31·h + code` wrapped to a signed 32-bit value. */
    static method HashText(clean: string) returns (hash: int)
      ensures hash == Hash(clean) && hash == ToInt32(Poly(clean))
    {
      hash := 0;
      for i := 0 to |clean|
        invariant hash == Hash(clean[..i])
      {
        HashPrefix(clean, i);
        HashStepUnfold(hash, clean[i]);
        hash := ShiftLeft(hash, 5) - hash + CharCode(clean[i]);
        hash := BitAnd(hash, hash);
      }
      assert clean[..|clean|] == clean;
      HashIsPolynomial(clean);
    }

    /**
      learn: false without touching storage for the empty question; otherwise
      the loaded memory with the entry for the question's key upserted,
      saved.
     */
    method Learn(question: string, answer: string, source: string, now: int, accepted: bool) returns (ok: bool)
      modifies this
      ensures question == [] ==> !ok && storage == old(storage)
      ensures question != [] ==>
        && ok == accepted
        && storage == if accepted
          then old(storage)[storageKey := encode(Stamped(Learned(Restore(old(Item()), decode, now), KeyOf(question).value, question, answer, source, now), now))]
          else old(storage)
    {
      var data := Load(now);
      var key := CreateKey(question);
      if key.None? {
        return false;
      }
      data := Learned(data, key.value, question, answer, source, now);
      ok := Save(data, now, accepted);
    }

    /**
      find: the exact entry for the key, else the first best fuzzy match above
      0.5, else None. It only reads storage.
     */
    method Find(questionText: string, now: int) returns (r: Option<Match>)
      ensures r == Recall(Restore(Item(), decode, now), questionText)
    {
      var data := Load(now);
      var key := CreateKey(questionText);
      if key.Some? && key.value in data.questions {
        var result := data.questions[key.value];
        r := Some(Match(result.a, result.count as real, Exact));
        assert ExactHit(data, questionText);
        return;
      }
      assert !ExactHit(data, questionText);
      var words := SignificantWords(questionText);
      var bestMatch, bestScore := FuzzySearch(data, words);
      if bestMatch.Some? {
        r := Some(Match(bestMatch.value.a, Confidence(bestMatch.value.count, bestScore), Fuzzy));
      } else {
        r := None;
      }
      assert r == FuzzyRecall(data, words);
    }

    /** The fuzzy loop of find: keeps the first entry whose score beats both the best so far and 0.5. */
    static method FuzzySearch(data: Store, words: seq<string>) returns (bestMatch: Option<Entry>, bestScore: real)
      ensures bestScore == Scan(Scores(words, data), |data.order|).1
      ensures Scan(Scores(words, data), |data.order|).0.None? ==> bestMatch.None?
      ensures Scan(Scores(words, data), |data.order|).0.Some? ==>
        bestMatch == Some(data.questions[data.order[Scan(Scores(words, data), |data.order|).0.value]])
    {
      ghost var scores := Scores(words, data);
      ghost var bestIndex: Option<nat> := None;
      bestMatch := None;
      bestScore := 0.0;
      for i := 0 to |data.order|
        invariant bestIndex == Scan(scores, i).0 && bestScore == Scan(scores, i).1
        invariant bestIndex.Some? ==> bestIndex.value < i && bestMatch == Some(data.questions[data.order[bestIndex.value]])
        invariant bestIndex.None? ==> bestMatch.None?
      {
        var qData, score := EntryScore(data, words, i);
        ScanStep(scores, i);
        if Above(score, bestScore) && Above(score, Threshold) {
          bestScore := score.value;
          bestMatch := Some(qData);
          bestIndex := Some(i);
        }
      }
    }

    /** One entry of the fuzzy loop: the entry at position `i` and its word-overlap score against the query words. */
    static method EntryScore(data: Store, words: seq<string>, i: nat) returns (qData: Entry, score: Score)
      requires i < |data.order|
      ensures qData == data.questions[data.order[i]] && score == Scores(words, data)[i]
    {
      qData := data.questions[data.order[i]];
      var qWords := SignificantWords(qData.q);
      score := WordScore(words, qWords);
      ScoreAt(words, data, i);
    }

    /** clear: removes the stored item, so the next load starts empty. */
    method Clear()
      modifies this
      ensures storage == old(storage) - {storageKey}
      ensures Item().None? && forall now :: Restore(Item(), decode, now) == Empty(now)
    {
      storage := storage - {storageKey};
    }

    /** The import handler: the file's text is stored as is, but only if it parses; otherwise storage is untouched. */
    method Import(text: string, accepted: bool) returns (ok: bool)
      modifies this
      ensures ok <==> decode(text).Some? && accepted
      ensures storage == if ok then old(storage)[storageKey := text] else old(storage)
    {
      var parsed := decode(text);
      if parsed.None? {
        return false;
      }
      if accepted {
        storage := storage[storageKey := text];
        ok := true;
      } else {
        ok := false;
      }
    }
  }

  /**
    learn followed by find on the same question, with nothing in between,
    answers exactly with the learned answer and its new count. `before` is
    the memory learn loaded and `key` the key createKey gives the question;
    find loads what learn saved.
   */
  lemma FindAfterLearn(decode: string -> Option<Store>, encode: Store -> string, before: Store,
                       key: string, question: string, answer: string, source: string, now: int, later: int)
    requires IsJsonCodec(decode, encode) && KeyOf(question) == Some(key)
    ensures Recall(Restore(Some(encode(Stamped(Learned(before, key, question, answer, source, now), now))), decode, later), question)
      == Some(Match(answer, ((if key in before.questions then before.questions[key].count else 0) + 1) as real, Exact))
  {
    var saved := Stamped(Learned(before, key, question, answer, source, now), now);
    RecallRestored(decode, encode, saved, later, question);
    RecallAfterLearned(before, key, question, answer, source, now);
  }

  /** find on a memory loaded from what save wrote answers as on the saved memory itself. */
  lemma RecallRestored(decode: string -> Option<Store>, encode: Store -> string, d: Store, now: int, text: string)
    requires IsJsonCodec(decode, encode)
    ensures Recall(Restore(Some(encode(d)), decode, now), text) == Recall(d, text)
  {
    RestoreEncoded(decode, encode, d, now);
  }

  /** After an import that succeeded, load gives back exactly the imported memory. */
  lemma LoadAfterImport(decode: string -> Option<Store>, encode: Store -> string, text: string, now: int)
    requires IsJsonCodec(decode, encode) && decode(text).Some?
    ensures Restore(Some(text), decode, now) == decode(text).value
  {
  }
}

=== FILE: Store.dfy ===
/**
  The stored answer memory as a value: the object `{questions, stats}` that
  memoryDB keeps as JSON under one storage key, and what learn and find do
  to it (enhanced-bot.js:18-28, 58-111).
 */
module Store {

  import opened Wrappers
  import opened Text
  import opened Fingerprint

  /** One remembered question: `{q, a, count, source, time}`. */
  datatype Entry = Entry(q: string, a: string, count: int, source: string, time: int)

  /** `{total, learned, lastUpdate}`. */
  datatype Stats = Stats(total: int, learned: int, lastUpdate: int)

  /**
    The stored object. `questions` maps a key to its entry; `order` lists
    the keys in insertion order, the order Object.entries reports them in
    (every key createKey makes contains `_`, so none is an array index that
    JavaScript would list first).
   */
  datatype Db = Db(order: seq<string>, questions: map<string, Entry>, stats: Stats)
  {
    /** A JavaScript object: each key once, and `order` lists exactly the keys of `questions`. */
    predicate Valid() {
      && (forall i, j :: 0 <= i < j < |order| ==> order[i] != order[j])
      && (forall k :: k in questions ==> k in order)
      && (forall i :: 0 <= i < |order| ==> order[i] in questions)
    }
  }

  type Store = d: Db | d.Valid() witness Db([], map[], Stats(0, 0, 0))

  /** The fresh memory `load` falls back to. */
  function Empty(now: int): (d: Store)
    ensures d.questions == map[] && d.order == []
    ensures d.stats == Stats(0, 0, now)
  {
    Db([], map[], Stats(0, 0, now))
  }

  /**
    memoryDB.load on the stored item (absent: None): a missing or empty item,
    or one JSON.parse rejects (decode gives None), yields the empty memory.
   */
  function Restore(item: Option<string>, decode: string -> Option<Store>, now: int): (d: Store)
    ensures d == Empty(now) || (item.Some? && decode(item.value) == Some(d))
    ensures item.None? || item == Some([]) ==> d == Empty(now)
    ensures item.Some? && decode(item.value).None? ==> d == Empty(now)
  {
    if item.None? || item.value == [] then Empty(now)
    else match decode(item.value)
      case Some(d) => d
      case None => Empty(now)
  }

  /** What a JSON.parse/JSON.stringify pair guarantees: the empty text does not parse, and stringify round-trips. */
  ghost predicate IsJsonCodec(decode: string -> Option<Store>, encode: Store -> string) {
    && decode([]) == None
    && forall d: Store :: decode(encode(d)) == Some(d)
  }

  /** Loading what was saved gives back the saved memory. */
  lemma RestoreEncoded(decode: string -> Option<Store>, encode: Store -> string, d: Store, now: int)
    requires IsJsonCodec(decode, encode)
    ensures Restore(Some(encode(d)), decode, now) == d
  {
    assert decode(encode(d)) == Some(d);
  }

  /** save: `data.stats.lastUpdate = Date.now()` before the memory is written. */
  function Stamped(d: Store, now: int): (r: Store)
    ensures r.order == d.order && r.questions == d.questions
    ensures r.stats.lastUpdate == now
    ensures r.stats.total == d.stats.total && r.stats.learned == d.stats.learned
  {
    d.(stats := d.stats.(lastUpdate := now))
  }

  const MaxStoredQuestion: nat := 200

  /** `s.substring(0, n)`. */
  function Prefix(s: string, n: nat): (r: string)
    ensures |r| <= n && r <= s
    ensures |r| == if |s| <= n then |s| else n
  {
    if |s| <= n then s else s[..n]
  }

  /** How many times `x` occurs in `s`. */
  function Occurrences<T(==)>(x: T, s: seq<T>): nat {
    multiset(s)[x]
  }

  /**
    learn's update of the loaded memory under `key` (enhanced-bot.js:64-73):
    the entry for `key` is replaced (or added at the end of the order), its
    count is one more than before, every other entry stays as it was, and
    the counters are refreshed.
   */
  function Learned(d: Store, key: string, question: string, answer: string, source: string, now: int): (r: Store)
    ensures key in r.questions && Occurrences(key, r.order) == 1
    ensures r.questions[key].a == answer
    ensures r.questions[key].q == Prefix(question, MaxStoredQuestion)
    ensures |r.questions[key].q| <= MaxStoredQuestion
    ensures r.questions[key].count == (if key in d.questions then d.questions[key].count else 0) + 1
    ensures r.questions[key].source == source && r.questions[key].time == now
    ensures forall k :: k != key ==> (k in r.questions <==> k in d.questions)
    ensures forall k :: k != key && k in d.questions ==> r.questions[k] == d.questions[k]
    ensures r.order == if key in d.questions then d.order else d.order + [key]
    ensures r.stats.total == |r.questions| && r.stats.learned == d.stats.learned + 1
    ensures r.stats.lastUpdate == d.stats.lastUpdate
  {
    var prior := if key in d.questions then d.questions[key].count else 0;
    var entry := Entry(Prefix(question, MaxStoredQuestion), answer, prior + 1, source, now);
    var order := if key in d.questions then d.order else d.order + [key];
    var r := Db(order, d.questions[key := entry], Stats(|order|, d.stats.learned + 1, d.stats.lastUpdate));
    assert r.Valid() by {
      forall i, j | 0 <= i < j < |order| ensures order[i] != order[j] {
        if key !in d.questions && j == |d.order| {
          assert order[i] == d.order[i];
        }
      }
    }
    DistinctOnce(r.order, key);
    KeysMatchOrder(r);
    r
  }

  /** In a sequence without repetitions an element that occurs at all occurs once. */
  lemma {:induction false} DistinctOnce<T>(s: seq<T>, x: T)
    requires forall i, j :: 0 <= i < j < |s| ==> s[i] != s[j]
    requires x in s
    ensures Occurrences(x, s) == 1
  {
    var n := |s| - 1;
    assert s == s[..n] + [s[n]];
    assert forall i, j :: 0 <= i < j < |s[..n]| ==> s[..n][i] != s[..n][j];
    if s[n] == x {
      assert x !in s[..n];
    } else {
      DistinctOnce(s[..n], x);
    }
  }

  /** A stored memory has as many keys in `questions` as in `order`, so `Object.keys(...).length` counts its entries. */
  lemma KeysMatchOrder(d: Store)
    ensures |d.questions| == |d.order|
  {
    DistinctCardinality(d.order);
    assert d.questions.Keys == set k | k in d.order;
  }

  lemma {:induction false} DistinctCardinality<T>(s: seq<T>)
    requires forall i, j :: 0 <= i < j < |s| ==> s[i] != s[j]
    ensures |set x | x in s| == |s|
  {
    if s != [] {
      var n := |s| - 1;
      var p := s[..n];
      assert forall i, j :: 0 <= i < j < |p| ==> p[i] != p[j];
      DistinctCardinality(p);
      assert (set x | x in s) == (set x | x in p) + {s[n]};
      assert s[n] !in p;
    }
  }

  /** `text.toLowerCase().split(/\W+/).filter(w => w.length > 3)`; the empty pieces a per-character split leaves between separators are filtered out all the same. */
  function SignificantWords(text: string): (ws: seq<string>)
    ensures forall i :: 0 <= i < |ws| ==> |ws[i]| > 3
  {
    Longer(Split(Lower(text), c => !IsWordChar(c)), 3)
  }

  /** A text of \w characters alone is one word of find, lower-cased, when it is longer than three characters, and none otherwise. */
  lemma SignificantWordsOfWord(w: string)
    requires forall i :: 0 <= i < |w| ==> IsWordChar(w[i])
    ensures SignificantWords(w) == if |w| > 3 then [Lower(w)] else []
  {
    var lw := Lower(w);
    assert forall i :: 0 <= i < |lw| ==> IsWordChar(lw[i]) by {
      forall i | 0 <= i < |lw| ensures IsWordChar(lw[i]) {
        assert IsWordChar(LowerChar(w[i]));
      }
    }
    SplitNoSep(lw, c => !IsWordChar(c));
  }

  /**
    A run of \w characters ended by a non-word character is the next piece of
    `split(/\W+/)`: it becomes find's next word, lower-cased, when it is longer
    than three characters, and the rest of the text gives the remaining words.
   */
  lemma SignificantWordsStep(w: string, x: char, rest: string)
    requires forall i :: 0 <= i < |w| ==> IsWordChar(w[i])
    requires !IsWordChar(x)
    ensures SignificantWords(w + [x] + rest) == (if |w| > 3 then [Lower(w)] else []) + SignificantWords(rest)
  {
    var lw := Lower(w);
    LowerAppend(w + [x], rest);
    LowerAppend(w, [x]);
    assert Lower([x]) == [LowerChar(x)];
    assert forall i :: 0 <= i < |lw| ==> IsWordChar(lw[i]) by {
      forall i | 0 <= i < |lw| ensures IsWordChar(lw[i]) {
        assert IsWordChar(LowerChar(w[i]));
      }
    }
    SplitAtSep(lw, LowerChar(x), Lower(rest), c => !IsWordChar(c));
    var pieces := Split(Lower(rest), c => !IsWordChar(c));
    assert ([lw] + pieces)[0] == lw && ([lw] + pieces)[1..] == pieces;
  }

  /** `words.filter(w => qWords.includes(w))`: repeated query words count each time. */
  function Common(words: seq<string>, qWords: seq<string>): (r: seq<string>)
    ensures |r| <= |words|
    ensures forall i :: 0 <= i < |r| ==> r[i] in words && r[i] in qWords
    ensures forall w :: w in words && w in qWords ==> w in r
  {
    if words == [] then []
    else if words[0] in qWords then [words[0]] + Common(words[1..], qWords)
    else Common(words[1..], qWords)
  }

  /** A query word counts as often as it occurs in the query when the entry has it, and not at all otherwise. */
  lemma {:induction false} CommonCounts(words: seq<string>, qWords: seq<string>)
    ensures forall w :: multiset(Common(words, qWords))[w] == if w in qWords then multiset(words)[w] else 0
    decreases |words|
  {
    if words != [] {
      var x, rest := words[0], words[1..];
      var r, t := Common(words, qWords), Common(rest, qWords);
      CommonCounts(rest, qWords);
      MultisetFirst(words);
      if x in qWords {
        assert r == [x] + t;
        MultisetFirst(r);
        assert r[1..] == t;
      } else {
        assert r == t;
      }
    }
  }

  /** A score: a ratio, or NaN for 0/0. */
  datatype Score = NaN | Ratio(value: real)

  /** Above(s, x): the comparison `s > x`, false for NaN. */
  predicate Above(s: Score, x: real) {
    s.Ratio? && s.value > x
  }

  function Max(a: nat, b: nat): nat {
    if a < b then b else a
  }

  /** `common.length / Math.max(words.length, qWords.length)`, read as an exact rational. */
  function WordScore(words: seq<string>, qWords: seq<string>): (s: Score)
    ensures s.NaN? <==> words == [] && qWords == []
    ensures s.Ratio? ==> 0.0 <= s.value <= 1.0
    ensures words == [] ==> s == NaN || s == Ratio(0.0)
  {
    var m := Max(|words|, |qWords|);
    if m == 0 then NaN
    else
      var c := |Common(words, qWords)|;
      assert c <= m;
      RatioBounds(c, m);
      Ratio(c as real / m as real)
  }

  /** `c / m > 0.5` in whole numbers. */
  lemma RatioAboveHalf(c: nat, m: nat)
    requires 0 < m
    ensures c as real / m as real > 0.5 <==> 2 * c > m
  {
    var q := c as real / m as real;
    var x := q - 0.5;
    assert q * m as real == c as real;
    assert x * m as real == c as real - 0.5 * m as real;
    ProductSign(x, m as real);
  }

  lemma ProductSign(x: real, y: real)
    requires y > 0.0
    ensures x > 0.0 <==> x * y > 0.0
  {
    if x <= 0.0 {
      assert x * y <= 0.0 * y;
    }
  }

  /** An entry passes line 99's `score > 0.5` exactly when more than half of the longer word list is common words. */
  lemma WordScoreThreshold(words: seq<string>, qWords: seq<string>)
    ensures Above(WordScore(words, qWords), Threshold) <==> 2 * |Common(words, qWords)| > Max(|words|, |qWords|)
  {
    var m := Max(|words|, |qWords|);
    if m > 0 {
      RatioAboveHalf(|Common(words, qWords)|, m);
    }
  }

  /** Every query word the entry has is common. */
  lemma {:induction false} CommonAll(words: seq<string>, qWords: seq<string>)
    requires forall i :: 0 <= i < |words| ==> words[i] in qWords
    ensures Common(words, qWords) == words
  {
    if words != [] {
      CommonAll(words[1..], qWords);
      assert [words[0]] + words[1..] == words;
    }
  }

  /** A question with significant words scores 1 against its own stored text, so a fuzzy match is possible. */
  lemma WordScoreSelf(ws: seq<string>)
    requires ws != []
    ensures WordScore(ws, ws) == Ratio(1.0)
  {
    CommonAll(ws, ws);
    assert Max(|ws|, |ws|) == |Common(ws, ws)| == |ws|;
    RatioOne(|ws|);
  }

  lemma RatioOne(m: nat)
    requires 0 < m
    ensures m as real / m as real == 1.0
  {
  }

  lemma RatioBounds(c: nat, m: nat)
    requires 0 < m && c <= m
    ensures 0.0 <= c as real / m as real <= 1.0
  {
  }

  const Threshold: real := 0.5

  /** The entries of a memory in iteration order. */
  function Entries(d: Store): (es: seq<Entry>)
    ensures |es| == |d.order|
  {
    seq(|d.order|, i requires 0 <= i < |d.order| => d.questions[d.order[i]])
  }

  /** The score of each entry against the query words. */
  function ScoresOf(words: seq<string>, es: seq<Entry>): (scores: seq<Score>)
    ensures |scores| == |es|
  {
    if es == [] then [] else [WordScore(words, SignificantWords(es[0].q))] + ScoresOf(words, es[1..])
  }

  /** The score of every entry, in iteration order, against the query words. */
  function Scores(words: seq<string>, d: Store): (scores: seq<Score>)
    ensures |scores| == |d.order|
  {
    ScoresOf(words, Entries(d))
  }

  lemma {:induction false} ScoresOfAt(words: seq<string>, es: seq<Entry>, i: nat)
    requires i < |es|
    ensures ScoresOf(words, es)[i] == WordScore(words, SignificantWords(es[i].q))
  {
    if i > 0 {
      ScoresOfAt(words, es[1..], i - 1);
    }
  }

  lemma ScoreAt(words: seq<string>, d: Store, i: nat)
    requires i < |d.order|
    ensures Scores(words, d)[i] == WordScore(words, SignificantWords(d.questions[d.order[i]].q))
  {
    ScoresOfAt(words, Entries(d), i);
  }

  /**
    The fuzzy loop of find (enhanced-bot.js:94-103) over the first `n`
    scores: the index of `bestMatch` and `bestScore`, starting from null and 0.
   */
  function Scan(scores: seq<Score>, n: nat): (r: (Option<nat>, real))
    requires n <= |scores|
    ensures r.0.Some? ==> r.0.value < n
  {
    if n == 0 then (None, 0.0)
    else
      var previous := Scan(scores, n - 1);
      if Above(scores[n - 1], previous.1) && Above(scores[n - 1], Threshold) then (Some(n - 1), scores[n - 1].value)
      else previous
  }

  /** One step of the fuzzy loop: the next score replaces the best so far only if it beats both it and 0.5. */
  lemma ScanStep(scores: seq<Score>, i: nat)
    requires i < |scores|
    ensures Above(scores[i], Scan(scores, i).1) && Above(scores[i], Threshold) ==>
      Scan(scores, i + 1).0 == Some(i) && Scan(scores, i + 1).1 == scores[i].value
    ensures !(Above(scores[i], Scan(scores, i).1) && Above(scores[i], Threshold)) ==>
      Scan(scores, i + 1) == Scan(scores, i)
  {
  }

  /** The pick of the fuzzy loop, when there is one, has the best score, and that score is above 0.5. */
  lemma {:induction false} ScanPick(scores: seq<Score>, n: nat)
    requires n <= |scores|
    ensures Scan(scores, n).0.None? ==> Scan(scores, n).1 == 0.0
    ensures Scan(scores, n).0.Some? ==>
      scores[Scan(scores, n).0.value] == Ratio(Scan(scores, n).1) && Scan(scores, n).1 > Threshold
  {
    if n > 0 {
      ScanPick(scores, n - 1);
    }
  }

  /** No score among the first `n` is above both the best score and 0.5. */
  lemma {:induction false} ScanMaximal(scores: seq<Score>, n: nat)
    requires n <= |scores|
    ensures forall j :: 0 <= j < n ==> !(Above(scores[j], Scan(scores, n).1) && Above(scores[j], Threshold))
  {
    if n > 0 {
      ScanMaximal(scores, n - 1);
      var s := Scan(scores, n - 1).1;
      var t := Scan(scores, n).1;
      assert s <= t;
      forall j | 0 <= j < n
        ensures !(Above(scores[j], t) && Above(scores[j], Threshold))
      {
        if j < n - 1 {
          assert !(Above(scores[j], s) && Above(scores[j], Threshold));
        }
      }
    }
  }

  /** The fuzzy loop picks nothing exactly when no score among the first `n` is above 0.5. */
  lemma {:induction false} ScanNone(scores: seq<Score>, n: nat)
    requires n <= |scores|
    ensures Scan(scores, n).0.None? <==> forall j :: 0 <= j < n ==> !Above(scores[j], Threshold)
  {
    if n > 0 {
      ScanNone(scores, n - 1);
      ScanPick(scores, n);
      ScanMaximal(scores, n);
      if Scan(scores, n).0.Some? {
        assert Above(scores[Scan(scores, n).0.value], Threshold);
      }
    }
  }

  /** No score before the pick equals the best score: among equal scores the earliest wins. */
  lemma {:induction false} ScanFirst(scores: seq<Score>, n: nat)
    requires n <= |scores|
    ensures Scan(scores, n).0.Some? ==>
      forall j :: 0 <= j < Scan(scores, n).0.value ==> scores[j] != Ratio(Scan(scores, n).1)
  {
    if n > 0 {
      ScanFirst(scores, n - 1);
      ScanMaximal(scores, n - 1);
      if Scan(scores, n).0 == Some(n - 1) {
        var s := Scan(scores, n - 1).1;
        var t := Scan(scores, n).1;
        assert t > s;
        forall j | 0 <= j < n - 1
          ensures scores[j] != Ratio(t)
        {
          assert !(Above(scores[j], s) && Above(scores[j], Threshold));
        }
      }
    }
  }

  /**
    The fuzzy loop picks, among the first `n` entries, the first one with the
    greatest score, and only if that score is above 0.5; it picks nothing
    exactly when no score is above 0.5.
   */
  lemma ScanPicksFirstBest(scores: seq<Score>, n: nat)
    requires n <= |scores|
    ensures var (best, bestScore) := Scan(scores, n);
      && (best.None? <==> forall j :: 0 <= j < n ==> !Above(scores[j], Threshold))
      && (best.None? ==> bestScore == 0.0)
      && (best.Some? ==>
            && best.value < n
            && scores[best.value] == Ratio(bestScore)
            && bestScore > Threshold
            && (forall j :: 0 <= j < n ==> !Above(scores[j], bestScore))
            && (forall j :: 0 <= j < best.value ==> scores[j] != Ratio(bestScore)))
  {
    ScanPick(scores, n);
    ScanMaximal(scores, n);
    ScanNone(scores, n);
    ScanFirst(scores, n);
    var (best, bestScore) := Scan(scores, n);
    if best.Some? {
      forall j | 0 <= j < n
        ensures !Above(scores[j], bestScore)
      {
        assert !(Above(scores[j], bestScore) && Above(scores[j], Threshold));
      }
    }
  }

  /** A query without a word longer than three characters never matches fuzzily. */
  lemma NoSignificantWordsNoFuzzy(d: Store, text: string)
    requires SignificantWords(text) == []
    ensures Scan(Scores(SignificantWords(text), d), |d.order|).0 == None
  {
    var scores := Scores(SignificantWords(text), d);
    forall j | 0 <= j < |d.order|
      ensures !Above(scores[j], Threshold)
    {
      ScoreAt(SignificantWords(text), d, j);
    }
    ScanNone(scores, |d.order|);
  }

  datatype Kind = Exact | Fuzzy

  /** `{answer, confidence, type}`. */
  datatype Match = Match(answer: string, confidence: real, kind: Kind)

  /** The key hit of find: the key exists and is stored. */
  predicate ExactHit(d: Store, text: string)
    ensures ExactHit(d, text) ==> text != [] && d.questions != map[]
  {
    KeyOf(text).Some? && KeyOf(text).value in d.questions
  }

  /** `bestMatch.count * bestScore`. */
  function Confidence(count: int, score: real): (r: real)
    ensures 0 <= count && 0.0 <= score <= 1.0 ==> 0.0 <= r <= count as real
    ensures score == 1.0 ==> r == count as real
  {
    ConfidenceBounds(count, score);
    count as real * score
  }

  lemma ConfidenceBounds(count: int, score: real)
    ensures 0 <= count && 0.0 <= score <= 1.0 ==> 0.0 <= count as real * score <= count as real
  {
    if 0 <= count && 0.0 <= score <= 1.0 {
      assert count as real * score <= count as real * 1.0;
    }
  }

  /** Position `i` holds the first greatest score `s`, and `s` is above 0.5. */
  predicate IsFirstBest(scores: seq<Score>, i: nat, s: real) {
    && i < |scores| && scores[i] == Ratio(s) && s > Threshold
    && (forall j :: 0 <= j < |scores| ==> !Above(scores[j], s))
    && (forall j :: 0 <= j < i ==> scores[j] != Ratio(s))
  }

  /**
    The fuzzy half of find: the entry the fuzzy loop picks, with confidence
    count × score, or None when no entry scores above 0.5.
   */
  function FuzzyRecall(d: Store, words: seq<string>): (r: Option<Match>)
    ensures r.None? <==> forall j :: 0 <= j < |d.order| ==> !Above(Scores(words, d)[j], Threshold)
    ensures r.Some? ==>
      exists i: nat, s: real ::
        && IsFirstBest(Scores(words, d), i, s)
        && i < |d.order|
        && r.value == Match(d.questions[d.order[i]].a, Confidence(d.questions[d.order[i]].count, s), Fuzzy)
  {
    var scores := Scores(words, d);
    ScanPicksFirstBest(scores, |d.order|);
    var pick := Scan(scores, |d.order|);
    if pick.0.Some? then
      var e := d.questions[d.order[pick.0.value]];
      assert IsFirstBest(scores, pick.0.value, pick.1);
      Some(Match(e.a, Confidence(e.count, pick.1), Fuzzy))
    else None
  }

  /** Asking with the significant words of a stored question always gives a fuzzy match, since that entry scores 1. */
  lemma FuzzyRecallOfStored(d: Store, i: nat)
    requires i < |d.order| && SignificantWords(d.questions[d.order[i]].q) != []
    ensures FuzzyRecall(d, SignificantWords(d.questions[d.order[i]].q)).Some?
  {
    var words := SignificantWords(d.questions[d.order[i]].q);
    ScoreAt(words, d, i);
    WordScoreSelf(words);
  }

  /**
    memoryDB.find on a loaded memory: an exact key hit answers with the
    entry's count as confidence; otherwise the fuzzy loop's pick answers with
    count × score; otherwise null.
   */
  function Recall(d: Store, text: string): (r: Option<Match>)
    ensures ExactHit(d, text) ==>
      r == Some(Match(d.questions[KeyOf(text).value].a, d.questions[KeyOf(text).value].count as real, Exact))
    ensures r.Some? && r.value.kind == Fuzzy ==> !ExactHit(d, text)
    ensures !ExactHit(d, text) ==> r == FuzzyRecall(d, SignificantWords(text))
    ensures r.None? <==>
      !ExactHit(d, text) &&
      forall j :: 0 <= j < |d.order| ==> !Above(Scores(SignificantWords(text), d)[j], Threshold)
  {
    if ExactHit(d, text) then
      var e := d.questions[KeyOf(text).value];
      Some(Match(e.a, e.count as real, Exact))
    else FuzzyRecall(d, SignificantWords(text))
  }

  /**
    Finding a question in the memory that learn has just saved for it (the
    learned memory under the question's key, stamped) gives back the learned
    answer, exactly, with its new count.
   */
  lemma RecallAfterLearned(d: Store, key: string, question: string, answer: string, source: string, now: int)
    requires KeyOf(question) == Some(key)
    ensures Recall(Stamped(Learned(d, key, question, answer, source, now), now), question)
      == Some(Match(answer, ((if key in d.questions then d.questions[key].count else 0) + 1) as real, Exact))
  {
    var saved := Stamped(Learned(d, key, question, answer, source, now), now);
    RecallExact(saved, question, key);
  }

  /** A question whose key is stored is answered by that entry, with its count as confidence. */
  lemma RecallExact(d: Store, text: string, key: string)
    requires KeyOf(text) == Some(key) && key in d.questions
    ensures Recall(d, text) == Some(Match(d.questions[key].a, d.questions[key].count as real, Exact))
  {
  }
}

=== FILE: Text.dfy ===
/**
  The string operations memoryDB builds its keys and word lists from:
  ASCII case folding, the regular-expression classes \w and \s, whitespace
  collapsing and trimming, String.prototype.split and Array.prototype.join,
  and the decimal rendering of a number inside a template literal.
 */
module Text {

  /** The regular-expression class \w: [A-Za-z0-9_], all of it ASCII and none of it \s. */
  predicate IsWordChar(c: char)
    ensures IsWordChar(c) ==> c as int < 128 && !IsSpace(c)
  {
    'a' <= c <= 'z' || 'A' <= c <= 'Z' || '0' <= c <= '9' || c == '_'
  }

  /** The regular-expression class \s, which is also the set String.prototype.trim removes. */
  predicate IsSpace(c: char) {
    || c == ' ' || c == '\t' || c == '\n' || c == '\U{B}' || c == '\U{C}' || c == '\r'
    || c == '\U{A0}' || c == '\U{1680}' || '\U{2000}' <= c <= '\U{200A}'
    || c == '\U{2028}' || c == '\U{2029}' || c == '\U{202F}' || c == '\U{205F}'
    || c == '\U{3000}' || c == '\U{FEFF}'
  }

  predicate IsUpper(c: char) {
    'A' <= c <= 'Z'
  }

  /** String.prototype.toLowerCase on one character, restricted to ASCII. */
  function LowerChar(c: char): (r: char)
    ensures !IsUpper(r)
    ensures IsUpper(c) ==> 'a' <= r <= 'z' && r as int - 'a' as int == c as int - 'A' as int
    ensures IsWordChar(r) <==> IsWordChar(c)
    ensures IsSpace(r) <==> IsSpace(c)
    ensures !IsUpper(c) ==> r == c
  {
    if IsUpper(c) then (c as int + 32) as char else c
  }

  function Lower(s: string): (r: string)
    ensures |r| == |s|
    ensures forall i :: 0 <= i < |r| ==> !IsUpper(r[i])
    ensures forall i :: 0 <= i < |s| && IsUpper(s[i]) ==> 'a' <= r[i] <= 'z' && r[i] as int - 'a' as int == s[i] as int - 'A' as int
    ensures forall i :: 0 <= i < |s| && !IsUpper(s[i]) ==> r[i] == s[i]
  {
    seq(|s|, i requires 0 <= i < |s| => LowerChar(s[i]))
  }

  lemma LowerAppend(a: string, b: string)
    ensures Lower(a + b) == Lower(a) + Lower(b)
  {
    assert forall i :: 0 <= i < |a + b| ==> Lower(a + b)[i] == (Lower(a) + Lower(b))[i];
  }

  /** A text without ASCII upper-case letters is its own lower-case form. */
  lemma LowerOfLower(s: string)
    requires forall i :: 0 <= i < |s| ==> !IsUpper(s[i])
    ensures Lower(s) == s
  {
  }

  /** `replace(/[^\w\s]/g, '')`: drop every character that is neither \w nor \s. */
  function Strip(s: string): (r: string)
    ensures |r| <= |s|
    ensures forall i :: 0 <= i < |r| ==> (IsWordChar(r[i]) || IsSpace(r[i])) && r[i] in s
    ensures (forall i :: 0 <= i < |s| ==> IsWordChar(s[i]) || IsSpace(s[i])) ==> r == s
  {
    if s == [] then []
    else if IsWordChar(s[0]) || IsSpace(s[0]) then [s[0]] + Strip(s[1..])
    else Strip(s[1..])
  }

  lemma {:induction false} StripAppend(a: string, b: string)
    ensures Strip(a + b) == Strip(a) + Strip(b)
  {
    if a != [] {
      assert (a + b)[0] == a[0];
      assert (a + b)[1..] == a[1..] + b;
      StripAppend(a[1..], b);
      if IsWordChar(a[0]) || IsSpace(a[0]) {
        assert Strip(a + b) == [a[0]] + Strip(a[1..] + b);
        assert Strip(a) == [a[0]] + Strip(a[1..]);
        assert [a[0]] + (Strip(a[1..]) + Strip(b)) == [a[0]] + Strip(a[1..]) + Strip(b);
      } else {
        assert Strip(a + b) == Strip(a[1..] + b);
      }
    } else {
      assert a + b == b;
    }
  }

  predicate AllSpace(s: string) {
    forall i :: 0 <= i < |s| ==> IsSpace(s[i])
  }

  /** Drops the leading run of \s characters: String.prototype.trimStart. */
  function TrimStart(s: string): (r: string)
    ensures |r| <= |s| && r == s[|s| - |r|..]
    ensures AllSpace(s[..|s| - |r|])
    ensures r == [] || !IsSpace(r[0])
  {
    if s != [] && IsSpace(s[0]) then TrimStart(s[1..]) else s
  }

  /** Drops the trailing run of \s characters: String.prototype.trimEnd. */
  function TrimEnd(s: string): (r: string)
    ensures |r| <= |s| && r == s[..|r|]
    ensures AllSpace(s[|r|..])
    ensures r == [] || !IsSpace(r[|r| - 1])
  {
    if s != [] && IsSpace(s[|s| - 1]) then TrimEnd(s[..|s| - 1]) else s
  }

  /** String.prototype.trim. */
  function Trim(s: string): (r: string)
    ensures r == [] || (!IsSpace(r[0]) && !IsSpace(r[|r| - 1]))
  {
    TrimEnd(TrimStart(s))
  }

  /** `replace(/\s+/g, ' ')`: every maximal run of \s characters becomes one ' '. */
  function Collapse(s: string): (r: string)
    ensures s != [] ==> r != [] && r[0] == (if IsSpace(s[0]) then ' ' else s[0])
    decreases |s|
  {
    if s == [] then []
    else if IsSpace(s[0]) then [' '] + Collapse(TrimStart(s[1..]))
    else [s[0]] + Collapse(s[1..])
  }

  /** One step of Collapse on a text given as its first character and the rest. */
  lemma CollapseCons(c: char, rest: string)
    ensures Collapse([c] + rest) ==
      if IsSpace(c) then [' '] + Collapse(TrimStart(rest)) else [c] + Collapse(rest)
  {
    assert ([c] + rest)[0] == c && ([c] + rest)[1..] == rest;
  }

  /** No two ' ' characters stand next to each other. */
  predicate NoDoubleSpace(r: string) {
    forall i :: 0 <= i < |r| - 1 ==> !(r[i] == ' ' && r[i + 1] == ' ')
  }

  /** A lower-case \w character: what survives of the question text besides ' '. */
  predicate IsKeyChar(c: char) {
    IsWordChar(c) && !IsUpper(c)
  }

  /** Collapse never puts two ' ' side by side. */
  lemma {:induction false} CollapseNoDoubleSpace(s: string)
    ensures NoDoubleSpace(Collapse(s))
    decreases |s|
  {
    if s != [] {
      var r := Collapse(s);
      if IsSpace(s[0]) {
        var t := TrimStart(s[1..]);
        var c := Collapse(t);
        CollapseNoDoubleSpace(t);
        assert r == [' '] + c;
        forall i | 0 <= i < |r| - 1
          ensures !(r[i] == ' ' && r[i + 1] == ' ')
        {
          if i == 0 {
            assert r[1] == c[0] == t[0];
          } else {
            assert r[i] == c[i - 1] && r[i + 1] == c[i];
          }
        }
      } else {
        var c := Collapse(s[1..]);
        CollapseNoDoubleSpace(s[1..]);
        assert r == [s[0]] + c;
        forall i | 0 <= i < |r| - 1
          ensures !(r[i] == ' ' && r[i + 1] == ' ')
        {
          if i > 0 {
            assert r[i] == c[i - 1] && r[i + 1] == c[i];
          }
        }
      }
    }
  }

  /** On a text of lower-case \w and \s characters, Collapse leaves lower-case \w and ' ' only. */
  lemma {:induction false} CollapseKeyChars(s: string)
    requires forall i :: 0 <= i < |s| ==> IsKeyChar(s[i]) || IsSpace(s[i])
    ensures forall i :: 0 <= i < |Collapse(s)| ==> IsKeyChar(Collapse(s)[i]) || Collapse(s)[i] == ' '
    decreases |s|
  {
    if s != [] {
      var r := Collapse(s);
      if IsSpace(s[0]) {
        var t := TrimStart(s[1..]);
        assert t == s[1..][|s| - 1 - |t|..];
        assert forall i :: 0 <= i < |t| ==> t[i] == s[|s| - |t| + i];
        CollapseKeyChars(t);
        assert r == [' '] + Collapse(t);
      } else {
        CollapseKeyChars(s[1..]);
        assert r == [s[0]] + Collapse(s[1..]);
      }
    }
  }

  /** A prefix made only of \s characters disappears under TrimStart. */
  lemma {:induction false} TrimStartSpacePrefix(p: string, s: string)
    requires AllSpace(p)
    ensures TrimStart(p + s) == TrimStart(s)
  {
    if p != [] {
      assert (p + s)[0] == p[0];
      assert (p + s)[1..] == p[1..] + s;
      assert IsSpace(p[0]);
      assert TrimStart(p + s) == TrimStart(p[1..] + s);
      TrimStartSpacePrefix(p[1..], s);
    } else {
      assert p + s == s;
    }
  }

  /** A prefix with a non-space character keeps everything after its leading run. */
  lemma {:induction false} TrimStartAppend(p: string, s: string)
    requires !AllSpace(p)
    ensures TrimStart(p + s) == TrimStart(p) + s
  {
    assert p != [];
    assert (p + s)[0] == p[0];
    if IsSpace(p[0]) {
      assert (p + s)[1..] == p[1..] + s;
      assert !AllSpace(p[1..]) by {
        var i :| 0 <= i < |p| && !IsSpace(p[i]);
        assert p[1..][i - 1] == p[i];
      }
      TrimStartAppend(p[1..], s);
    }
  }

  /** A text that starts with \s collapses to ' ' followed by the collapse of what follows its leading run. */
  lemma CollapseLeadingSpace(x: string)
    requires x != [] && IsSpace(x[0])
    ensures Collapse(x) == [' '] + Collapse(TrimStart(x))
  {
  }

  /** A run at the very start collapses like a single ' '. */
  lemma CollapseRunAtStart(run: string, b: string)
    requires run != [] && AllSpace(run)
    ensures Collapse(run + b) == Collapse([' '] + b)
  {
    assert (run + b)[0] == run[0];
    CollapseLeadingSpace(run + b);
    CollapseLeadingSpace([' '] + b);
    TrimStartSpacePrefix(run, b);
    TrimStartSpacePrefix([' '], b);
  }

  /**
    Collapse does not see which \s characters a run holds or how long it is:
    any non-empty run of them collapses exactly like a single ' '.
   */
  lemma {:induction false} CollapseRun(a: string, run: string, b: string)
    requires run != [] && AllSpace(run)
    ensures Collapse(a + run + b) == Collapse(a + [' '] + b)
    decreases |a|
  {
    if a == [] {
      assert a + run + b == run + b && a + [' '] + b == [' '] + b;
      CollapseRunAtStart(run, b);
    } else if !IsSpace(a[0]) {
      var a' := a[1..];
      assert a + run + b == [a[0]] + (a' + run + b);
      assert a + [' '] + b == [a[0]] + (a' + [' '] + b);
      CollapseCons(a[0], a' + run + b);
      CollapseCons(a[0], a' + [' '] + b);
      CollapseRun(a', run, b);
    } else if AllSpace(a) {
      assert a + run + b == (a + run) + b && a + [' '] + b == (a + [' ']) + b;
      CollapseRunAtStart(a + run, b);
      CollapseRunAtStart(a + [' '], b);
    } else {
      CollapseRunAfterSpace(a, run, b);
    }
  }

  /** The case of CollapseRun where `a` opens with \s but holds some other character. */
  lemma {:induction false} CollapseRunAfterSpace(a: string, run: string, b: string)
    requires run != [] && AllSpace(run)
    requires a != [] && IsSpace(a[0]) && !AllSpace(a)
    ensures Collapse(a + run + b) == Collapse(a + [' '] + b)
    decreases |a|, 0
  {
    var d := TrimStart(a);
    assert |d| < |a| by {
      assert d == [] || d[0] != a[0];
    }
    CollapseSkipsLeadingRun(a, run, b);
    CollapseSkipsLeadingRun(a, [' '], b);
    CollapseRun(d, run, b);
  }

  /** Past a leading run of `a` that is followed by other text, Collapse emits one ' ' and goes on after the run. */
  lemma CollapseSkipsLeadingRun(a: string, mid: string, b: string)
    requires a != [] && IsSpace(a[0]) && !AllSpace(a)
    ensures Collapse(a + mid + b) == [' '] + Collapse(TrimStart(a) + mid + b)
  {
    var x, rest := SplitAppend(a, mid, b);
    CollapseLeadingSpace(x);
    TrimStartAppend(a, rest);
  }

  /** `a + mid + b` regrouped so that `a` comes first, for lemmas about prefixes. */
  lemma SplitAppend(a: string, mid: string, b: string) returns (x: string, rest: string)
    requires a != []
    ensures x == a + mid + b == a + rest && rest == mid + b && x[0] == a[0]
    ensures TrimStart(a) + rest == TrimStart(a) + mid + b
  {
    x, rest := a + mid + b, mid + b;
    assert x == a + rest;
  }

  /** Collapsing after a leading run is the same as trimming the collapsed text. */
  lemma CollapseTrimStart(s: string)
    ensures TrimStart(Collapse(s)) == Collapse(TrimStart(s))
  {
    if s != [] && IsSpace(s[0]) {
      var c := Collapse(TrimStart(s[1..]));
      assert Collapse(s) == [' '] + c;
      assert ([' '] + c)[1..] == c;
    }
  }

  /** A ' ' appended after a non-space character survives Collapse as one ' '. */
  lemma {:induction false} CollapseSnocSpace(s: string)
    requires s == [] || !IsSpace(s[|s| - 1])
    ensures Collapse(s + [' ']) == Collapse(s) + [' ']
    decreases |s|, 1
  {
    if s != [] {
      var c, rest := ConsSnoc(s);
      if IsSpace(c) {
        CollapseSnocSpaceAfterRun(c, rest);
      } else {
        CollapseSnocSpaceAfterChar(c, rest);
      }
    }
  }

  lemma {:induction false} CollapseSnocSpaceAfterChar(c: char, rest: string)
    requires !IsSpace(c)
    requires rest == [] || !IsSpace(rest[|rest| - 1])
    ensures Collapse([c] + (rest + [' '])) == Collapse([c] + rest) + [' ']
    decreases |rest| + 1, 0
  {
    CollapseCons(c, rest);
    CollapseCons(c, rest + [' ']);
    CollapseSnocSpace(rest);
    AppendAssoc([c], Collapse(rest), [' ']);
  }

  lemma {:induction false} CollapseSnocSpaceAfterRun(c: char, rest: string)
    requires IsSpace(c)
    requires rest != [] && !IsSpace(rest[|rest| - 1])
    ensures Collapse([c] + (rest + [' '])) == Collapse([c] + rest) + [' ']
    decreases |rest| + 1, 0
  {
    CollapseCons(c, rest);
    CollapseCons(c, rest + [' ']);
    TrimStartBeforeSpace(rest);
    var d := TrimStart(rest);
    CollapseSnocSpace(d);
    AppendAssoc([' '], Collapse(d), [' ']);
  }

  /** TrimStart of a text that ends in a non-space character keeps that character, and a ' ' after it. */
  lemma TrimStartBeforeSpace(s: string)
    requires s != [] && !IsSpace(s[|s| - 1])
    ensures TrimStart(s) != [] && TrimStart(s)[|TrimStart(s)| - 1] == s[|s| - 1]
    ensures TrimStart(s + [' ']) == TrimStart(s) + [' ']
  {
    assert !AllSpace(s);
    TrimStartAppend(s, [' ']);
  }

  /** A non-empty text as its first character and the rest, before and after a ' ' is appended. */
  lemma ConsSnoc(s: string) returns (c: char, rest: string)
    requires s != []
    ensures c == s[0] && rest == s[1..] && |rest| == |s| - 1
    ensures s == [c] + rest && s + [' '] == [c] + (rest + [' '])
  {
    c, rest := s[0], s[1..];
    assert s + [' '] == [c] + (rest + [' ']);
  }

  lemma AppendAssoc(a: string, b: string, c: string)
    ensures a + (b + c) == (a + b) + c
  {
  }

  /** A ' ' appended to a text that already ends in \s is absorbed by the final run. */
  lemma CollapseSnocAfterSpace(s: string)
    requires s != [] && IsSpace(s[|s| - 1])
    ensures Collapse(s + [' ']) == Collapse(s)
  {
    var init, z := SplitLast(s);
    CollapseEndRun(s, init, z);
  }

  /** The last character split off, in the shapes CollapseRun takes. */
  lemma SplitLast(s: string) returns (init: string, z: char)
    requires s != []
    ensures IsSpace(s[|s| - 1]) ==> IsSpace(z)
    ensures s + [' '] == init + [z, ' '] + [] && s == init + [z] + []
  {
    init, z := s[..|s| - 1], s[|s| - 1];
    assert s + [' '] == init + [z, ' '] + [];
    assert s == init + [z] + [];
  }

  lemma CollapseEndRun(s: string, init: string, z: char)
    requires IsSpace(z)
    requires s + [' '] == init + [z, ' '] + [] && s == init + [z] + []
    ensures Collapse(s + [' ']) == Collapse(s)
  {
    assert AllSpace([z, ' ']);
    CollapseRun(init, [z, ' '], []);
    assert AllSpace([z]);
    CollapseRun(init, [z], []);
  }

  /** TrimStart of a text followed by ' ' keeps that ' ' unless nothing else is left. */
  lemma {:induction false} TrimStartSnocSpace(s: string)
    ensures TrimStart(s + [' ']) == if TrimStart(s) == [] then [] else TrimStart(s) + [' ']
  {
    if s == [] {
      assert TrimStart([' ']) == TrimStart([]);
    } else {
      assert (s + [' '])[0] == s[0];
      assert (s + [' '])[1..] == s[1..] + [' '];
      if IsSpace(s[0]) {
        TrimStartSnocSpace(s[1..]);
      }
    }
  }

  /** String.prototype.split with a separator test applied to each character. */
  function Split(s: string, isSep: char -> bool): (r: seq<string>)
    ensures |r| >= 1
    ensures forall i, j :: 0 <= i < |r| && 0 <= j < |r[i]| ==> !isSep(r[i][j])
  {
    if s == [] then [[]]
    else
      var rest := Split(s[1..], isSep);
      if isSep(s[0]) then [[]] + rest
      else [[s[0]] + rest[0]] + rest[1..]
  }

  /** Array.prototype.join with a one-character separator. */
  function Join(ws: seq<string>, sep: char): (r: string)
    ensures ws != [] ==> ws[0] <= r
    ensures |ws| > 1 ==> ws[0] + [sep] <= r
  {
    if ws == [] then []
    else if |ws| == 1 then ws[0]
    else ws[0] + [sep] + Join(ws[1..], sep)
  }

  /** Splitting on a character and joining with it again gives the text back. */
  lemma {:induction false} JoinSplit(s: string, sep: char)
    ensures Join(Split(s, c => c == sep), sep) == s
  {
    if s != [] {
      var rest := Split(s[1..], c => c == sep);
      JoinSplit(s[1..], sep);
      if s[0] == sep {
        assert Split(s, c => c == sep) == [[]] + rest;
      } else {
        assert Split(s, c => c == sep) == [[s[0]] + rest[0]] + rest[1..];
        if |rest| > 1 {
          assert rest == [rest[0]] + rest[1..];
        }
      }
    }
  }

  /** A piece free of separators followed by a separator is the first field of the split. */
  lemma {:induction false} SplitAtSeparator(a: string, sep: char, rest: string)
    requires forall i :: 0 <= i < |a| ==> a[i] != sep
    ensures Split(a + [sep] + rest, c => c == sep) == [a] + Split(rest, c => c == sep)
  {
    if a != [] {
      var s := a + [sep] + rest;
      assert s[0] == a[0] && s[1..] == a[1..] + [sep] + rest;
      SplitAtSeparator(a[1..], sep, rest);
      assert [a[0]] + a[1..] == a;
    } else {
      assert a + [sep] + rest == [sep] + rest;
    }
  }

  /** A text in which no character is a separator splits into itself alone. */
  lemma {:induction false} SplitNoSep(a: string, isSep: char -> bool)
    requires forall i :: 0 <= i < |a| ==> !isSep(a[i])
    ensures Split(a, isSep) == [a]
  {
    if a != [] {
      SplitNoSep(a[1..], isSep);
      assert [a[0]] + a[1..] == a;
    }
  }

  /** For any separator test, a separator-free piece followed by a separator splits off as the first piece. */
  lemma {:induction false} SplitAtSep(a: string, x: char, rest: string, isSep: char -> bool)
    requires forall i :: 0 <= i < |a| ==> !isSep(a[i])
    requires isSep(x)
    ensures Split(a + [x] + rest, isSep) == [a] + Split(rest, isSep)
  {
    if a != [] {
      var s := a + [x] + rest;
      assert s[0] == a[0] && s[1..] == a[1..] + [x] + rest;
      SplitAtSep(a[1..], x, rest, isSep);
      assert [a[0]] + a[1..] == a;
    } else {
      assert a + [x] + rest == [x] + rest;
    }
  }

  /** `ws.filter(w => w.length > n)`. */
  function Longer(ws: seq<string>, n: nat): (r: seq<string>)
    ensures |r| <= |ws|
    ensures forall i :: 0 <= i < |r| ==> |r[i]| > n
  {
    if ws == [] then []
    else if |ws[0]| > n then [ws[0]] + Longer(ws[1..], n)
    else Longer(ws[1..], n)
  }

  /**
    The filter keeps every word longer than `n` as often as it occurs and
    drops every other word, and keeps the words in order.
   */
  lemma {:induction false} LongerKeepsLongWords(ws: seq<string>, n: nat)
    ensures IsSubsequence(Longer(ws, n), ws)
    ensures forall w :: w in ws && |w| > n ==> w in Longer(ws, n)
    ensures forall w :: multiset(Longer(ws, n))[w] == if |w| > n then multiset(ws)[w] else 0
    decreases |ws|
  {
    LongerCounts(ws, n);
    if ws != [] {
      var r, t := Longer(ws, n), Longer(ws[1..], n);
      LongerKeepsLongWords(ws[1..], n);
      if |ws[0]| > n {
        assert r == [ws[0]] + t && r[1..] == t;
      } else {
        assert r == t;
        assert t == [] || t[0] != ws[0] by {
          if t != [] {
            assert |t[0]| > n;
          }
        }
      }
      forall w | w in ws && |w| > n
        ensures w in r
      {
        if w != ws[0] {
          assert w in ws[1..];
        }
      }
    }
  }

  /** The filter keeps each word longer than `n` exactly as often as it occurs, and no other word. */
  lemma {:induction false} LongerCounts(ws: seq<string>, n: nat)
    ensures forall w :: multiset(Longer(ws, n))[w] == if |w| > n then multiset(ws)[w] else 0
    decreases |ws|
  {
    if ws != [] {
      var x, rest := ws[0], ws[1..];
      var r, t := Longer(ws, n), Longer(rest, n);
      LongerCounts(rest, n);
      MultisetFirst(ws);
      if |x| > n {
        assert r == [x] + t;
        MultisetFirst(r);
        assert r[1..] == t;
      } else {
        assert r == t;
      }
    }
  }

  /** Counting the elements of a non-empty sequence: its first element plus the rest. */
  lemma MultisetFirst<T>(s: seq<T>)
    requires s != []
    ensures multiset(s) == multiset{s[0]} + multiset(s[1..])
  {
    assert s == [s[0]] + s[1..];
  }

  /** `a` is `b` with some elements left out, the rest in the same order. */
  predicate IsSubsequence<T(==)>(a: seq<T>, b: seq<T>)
    decreases |b|
  {
    if a == [] then true
    else if b == [] then false
    else if a[0] == b[0] then IsSubsequence(a[1..], b[1..])
    else IsSubsequence(a, b[1..])
  }

  lemma {:induction false} PrefixIsSubsequence<T>(a: seq<T>, b: seq<T>, k: nat)
    requires IsSubsequence(a, b) && k <= |a|
    ensures IsSubsequence(a[..k], b)
    decreases |b|
  {
    if k > 0 && b != [] {
      if a[0] == b[0] {
        assert a[..k][1..] == a[1..][..k - 1];
        PrefixIsSubsequence(a[1..], b[1..], k - 1);
      } else {
        PrefixIsSubsequence(a, b[1..], k);
      }
    }
  }

  predicate IsDigit(c: char) {
    '0' <= c <= '9'
  }

  function DigitChar(d: nat): (c: char)
    requires d < 10
    ensures IsDigit(c)
  {
    ('0' as int + d) as char
  }

  /** The decimal form of a non-negative number, as `${n}` writes it. */
  function Decimal(n: nat): (r: string)
    ensures r != []
    ensures forall i :: 0 <= i < |r| ==> IsDigit(r[i])
    ensures |r| > 1 ==> r[0] != '0'
  {
    if n < 10 then [DigitChar(n)] else Decimal(n / 10) + [DigitChar(n % 10)]
  }

  /** The number a string of decimal digits denotes. */
  function ParseDecimal(s: string): nat
    requires forall i :: 0 <= i < |s| ==> IsDigit(s[i])
  {
    if s == [] then 0
    else 10 * ParseDecimal(s[..|s| - 1]) + DigitValue(s[|s| - 1])
  }

  function DigitValue(c: char): (d: nat)
    requires IsDigit(c)
    ensures d < 10 && DigitChar(d) == c
  {
    c as int - '0' as int
  }

  lemma {:induction false} ParseDecimalOfDecimal(n: nat)
    ensures ParseDecimal(Decimal(n)) == n
  {
    if n >= 10 {
      var d := Decimal(n);
      assert d[..|d| - 1] == Decimal(n / 10);
      ParseDecimalOfDecimal(n / 10);
    }
  }
}

=== FILE: Wrappers.dfy ===
/** The optional value used wherever the source returns `null`. */
module Wrappers {

  datatype Option<+T> = None | Some(value: T)
}
